=== FILE: README.md ===
# Song-play ETL: a Dafny model of the load core

The system loads two kinds of newline-delimited JSON files into a star schema.
Song-metadata files feed the `songs` and `artists` dimension tables. Event-log
files feed the `time` and `users` dimension tables and the `songplays` fact
table. This project models the part of the pipeline that decides what ends up
in the store:

- the conflict policy of every insert statement and the song/artist lookup
  join (`sql_queries.py`);
- the two per-file transforms, `process_song_file` and `process_log_file`
  (`etl.py`);
- the driver `process_data`, which runs one transform over a list of files,
  commits after each file and prints progress lines (`etl.py`).

The store is an immutable `Schema.Store`. It holds one map per keyed table,
the `songplays` sequence, and the next value of the songplay serial. Every
statement is a pure function from store to store. The transforms are folds of
those statements over parsed records. The driver is a loop, checked against a
reference fold (`Driver.FoldFiles`).

Modules, leaf first:

| file | module | models |
|---|---|---|
| wrappers.dfy | `Wrappers` | `Option` for NULL and empty lookups, `Result` for failing transforms |
| time_parts.dfy | `TimeParts` | time of day, hour, weekday and day number of an epoch-ms timestamp |
| schema.dfy | `Schema` | the five row types, the store, the `Consistent` invariant |
| records.dfy | `Records` | parsed song and log records |
| queries.dfy | `Queries` | the insert statements and `song_select` |
| etl.dfy | `Etl` | the NextSong filter, time decomposition, the three log passes, both file transforms |
| etl_properties.dfy | `EtlProperties` | properties that span several records or calls |
| driver.dfy | `Driver` | `process_data` as a loop with commit and progress |

Modelling decisions:

- **Keys.** Each table with a primary key is a map from key to row, so a key
  occurs at most once. `Schema.Consistent` also requires that every row is
  stored under its own key and that songplay ids are strictly increasing and
  below the serial. Every statement, pass and transform preserves it.
- **`songplays.start_time`.** The column is declared `time`. The transform
  passes the full timestamp `t[index]`, so the model stores the epoch
  milliseconds that the code passes.
- **`fetchone`.** When several rows match, the engine decides which row
  `fetchone` returns. The lookup takes that choice as a parameter
  (`Queries.Fetch`). Properties that depend on it assume
  `Queries.FetchPicksMember`: given a non-empty result, it returns one of its
  rows. `Fetch` is a function of the result set, so two lookups with equal
  result sets return the same row. That is stricter than `fetchone`, whose
  choice may differ between calls, and `EtlProperties.LookupReadsCatalog`
  relies on it.
- **Time of day.** `TimeParts.TimeOfDayOf` is `ts mod 86 400 000`. Dafny's
  `%` with a positive divisor floors, which matches how timestamps before
  the epoch convert. The weekday is `(days + 3) mod 7`, with Monday = 0 and
  1970-01-01 a Thursday.
- **Song files.** `process_song_file` reads `values[0]`. A file with no
  record raises an error, and records after the first are ignored. The model
  follows this code: an empty file yields `Failure(EmptySongFile)`. Extra
  records are not rejected: only `values[0]` is read.
- **Log files.** A log file with no line has no `page` column, so the filter
  at etl.py:37 raises. `Etl.ProcessLogFile` yields `Failure(EmptyLogFile)`
  for it. `Etl.LogFileWrites` is the effect of a file that has records, and
  the whole-file properties are stated about it.
- **Driver.** A failing transform halts the run. Stores committed before it
  stay committed, and the failing file's pending writes are never committed.

## Model

| member | source | states |
|---|---|---|
| `Queries.InsertOrIgnore` | sql_queries.py:77-94 | on-conflict-do-nothing: the key set gains the key, every existing row is kept, and an absent key gets exactly the new row |
| `Queries.InsertSong` | sql_queries.py:77-81 | a song insert adds `song_id` to the songs keys, never changes an existing song, stores the row for a new key, leaves every other table alone, and keeps the store consistent |
| `Queries.InsertArtist` | sql_queries.py:83-88 | an artist insert adds `artist_id`, keeps an existing artist (first sighting wins), leaves every other table alone, and keeps the store consistent |
| `Queries.InsertTime` | sql_queries.py:90-94 | a time insert adds `start_time`, keeps an existing row for that time of day, leaves every other table alone, and keeps the store consistent |
| `Queries.UpsertUser` | sql_queries.py:70-75 | a user upsert on an existing `user_id` replaces only `level`, and id, names and gender stay; a new key gets the whole row; other users and other tables are unchanged |
| `Queries.InsertSongplay` | sql_queries.py:66-68 | a songplay insert appends exactly one row with the given values, keeps the earlier rows as a prefix, in a consistent store gives the new row an id no existing row has, advances the serial, and changes no other table |
| `Queries.SongMatches` | sql_queries.py:98-101 | a pair is in the lookup result exactly when the song and artist exist, are joined on `artist_id`, and match title, artist name and duration |
| `Queries.SongSelect` | sql_queries.py:98-101 | the lookup returns a pair exactly when some song/artist pair satisfies the join predicate; if fetch picks a member, the returned pair satisfies all four conditions |
| `Queries.InsertSongIdempotent` | sql_queries.py:77-81 | applying the same song insert twice equals applying it once |
| `Queries.InsertArtistFirstWins` | sql_queries.py:83-88 | of two artist inserts with one key into a store without it, the first row is the one kept |
| `Queries.UpsertUserLastLevelWins` | sql_queries.py:70-75 | of two upserts for one user, the level of the second wins; names and gender are those of the stored user, or of the first row if the user was new |
| `TimeParts.TimeOfDayUnique` | etl.py:43 | the time-of-day key of a timestamp (`t.dt.time`) and its day number are the unique pair with `ts = days * 86 400 000 + time-of-day` and time of day in 0..86 399 999 |
| `TimeParts.DaysSinceEpoch` | etl.py:40 | the day number and the time of day reassemble the timestamp: `days * 86 400 000 + time-of-day = ts` |
| `TimeParts.HourOf` | etl.py:44 | the hour lies in 0..23 and is the hour interval of length 3 600 000 ms that contains the time of day |
| `TimeParts.WeekdayOf` | etl.py:49 | the weekday lies in 0..6 (its value is fixed by `EpochDayIsThursday` and `WeekdayShift`) |
| `TimeParts.EpochDayIsThursday` | etl.py:49 | with Monday = 0, every instant of 1970-01-01 has weekday 3, Thursday |
| `TimeParts.WeekdayShift` | etl.py:49 | moving a timestamp by k whole days moves its weekday by k modulo 7; with the epoch anchor this fixes the weekday of every date |
| `TimeParts.WholeDayShift` | etl.py:40-44 | moving a timestamp by k whole days keeps its time of day and hour and moves its day number by k |
| `TimeParts.WeekdayNextDay` | etl.py:49 | the one-day case of `WeekdayShift`: the weekday of the next day is the next weekday, wrapping 6 to 0 |
| `Etl.SongRowOf` | etl.py:17-19 | the song row carries the record's song_id, title, artist_id, year and duration |
| `Etl.ArtistRowOf` | etl.py:23-25 | the artist row carries the record's artist_id, name, location, latitude and longitude, and its key is the artist the song row of the same record refers to |
| `Etl.ProcessSongFile` | etl.py:8-26 | a song file fails exactly when it has no record; otherwise the song and artist keys of the first record are added, existing songs and artists are kept, new ones are that record's projections, and no other table nor the songplay serial changes |
| `Etl.NextSongs` | etl.py:37 | every kept record has page "NextSong", and the filter never grows the file |
| `Etl.Decompose` | etl.py:40-53 | a time row is keyed by the timestamp's time of day; its hour is the hour containing that time; its weekday is `WeekdayOf` of the timestamp (Monday = 0); day, week, month and year are the calendar's values at the timestamp's date, each in its own column |
| `EtlProperties.SameDateSameCalendarFields` | etl.py:45-49 | two timestamps on the same date get time rows with equal day, week, month, year and weekday |
| `EtlProperties.DecomposeWholeDayShift` | etl.py:40-49 | moving a timestamp by k whole days keeps its time row's key and hour, moves its weekday by k modulo 7, and reads day and year at the day number moved by k |
| `Etl.InsertTimes` | etl.py:53-56 | the time pass changes only the time table, keeps existing rows, and yields exactly the old keys plus every record's time of day |
| `Etl.UserRowOf` | etl.py:59 | the user row carries the record's userId, firstName, lastName, gender and level |
| `Etl.UpsertUsers` | etl.py:59-63 | the user pass changes only the users table, keeps every stored user, and yields exactly the old users plus every record's user |
| `Etl.SongplayOf` | etl.py:72-78 | both songplay foreign keys are set or neither is; they are set exactly when the lookup hit, and then they come from the hit |
| `Etl.LookupFor` | etl.py:69-75 | a record's lookup hits exactly when a song/artist pair matches its song, artist and length; a hit names a matching pair |
| `Etl.AppendSongplays` | etl.py:66-79 | the songplay pass appends one row per record, in record order, with consecutive serial ids and values built from that record and its lookup; no other table changes |
| `Etl.LogFileWrites` | etl.py:37-79 | the writes of a log file leave songs and artists unchanged, append as many songplays as it has NextSong records, keep earlier songplays, and keep the store consistent |
| `Etl.ProcessLogFile` | etl.py:29-79 | a log file fails exactly when it has no record, with `EmptyLogFile`; otherwise songs and artists are unchanged, one songplay is appended per NextSong record after the earlier ones, and consistency is kept |
| `EtlProperties.NextSongsAppend` | etl.py:37 | the filter distributes over concatenation, so it keeps record order |
| `EtlProperties.NextSongsIdempotent` | etl.py:37 | filtering twice equals filtering once |
| `EtlProperties.NextSongsCounts` | etl.py:37 | each NextSong record is kept as often as it occurs in the file, and every other record is dropped |
| `EtlProperties.NoNextSongIsEmpty` | etl.py:37 | a file without NextSong records yields no records |
| `EtlProperties.InsertTimesFirstWins` | etl.py:55-56 | a new time of day ends up holding the decomposition of the first record with that time of day |
| `EtlProperties.SameClockTimeOneRow` | etl.py:43-56 | two records at the same clock time on different days produce one time row, the first record's decomposition |
| `EtlProperties.UpsertUsersUntouched` | etl.py:62-63 | a user that no record names keeps its row or stays absent |
| `EtlProperties.UpsertUsersReadsUsers` | etl.py:62-63 | the user pass reads only the users table: equal users tables before give equal users tables after |
| `EtlProperties.UpsertUsersAppend` | etl.py:62-63 | a user pass over `a + b` equals a pass over `a` followed by a pass over `b` |
| `EtlProperties.UpsertUsersLastWriteWins` | etl.py:62-63 | each user's stored level is the level of that user's last record in the pass |
| `EtlProperties.UpsertUsersKeepsIdentity` | etl.py:62-63 | an already stored user keeps first name, last name and gender through the pass |
| `EtlProperties.UpsertUsersFirstSighting` | etl.py:62-63 | a new user gets first name, last name and gender from the first record that names them |
| `EtlProperties.LookupReadsCatalog` | sql_queries.py:98-101 | the lookup depends only on the songs and artists tables |
| `EtlProperties.LogFileIgnoresOtherPages` | etl.py:37 | a log file has the same effect as its NextSong records alone |
| `EtlProperties.LogFileWithoutNextSong` | etl.py:37 | the writes of a log file without NextSong records leave the whole store unchanged |
| `EtlProperties.LogFileSongplayValues` | etl.py:66-79 | the i-th new songplay holds the i-th NextSong record's values and its lookup against the songs and artists present before the file |
| `EtlProperties.LogFileSongplayRow` | etl.py:69-79 | the i-th new songplay carries that record's ts, userId, level, sessionId, location and userAgent; its two keys are both set or both null, set exactly when a pair matches, and then they name a matching pair |
| `EtlProperties.LogFileUserLevel` | etl.py:59-63 | after a log file, a user's level is the level of that user's last NextSong record in the file |
| `EtlProperties.LogFileUsers` | etl.py:58-63 | a log file changes the users table exactly as a user pass over its NextSong records does |
| `EtlProperties.InsertTimesKeys` | etl.py:55-56 | after the time pass a key is present exactly when it was present before or is some record's time of day |
| `EtlProperties.LogFileTime` | etl.py:53-79 | a log file's time table is the one its time pass leaves; the user and songplay passes do not touch it |
| `EtlProperties.LogFileTimeKeys` | etl.py:40-56 | after a log file, the time keys are the old keys plus the times of day of the NextSong records |
| `EtlProperties.SongFileIdempotent` | etl.py:17-26 | running a song file again leaves the store as after the first run |
| `EtlProperties.SongFileFirstRecordOnly` | etl.py:17-26 | a song file has the same effect as its first record alone |
| `EtlProperties.OneEventSongplay` | etl.py:66-79 | a log file holding one NextSong event appends exactly one songplay, built from that event and its lookup against the store before the file |
| `EtlProperties.SongThenLogResolvesKeys` | etl.py:8-79 | into an empty store, a song file for S1 by A1 and then a matching NextSong event give a songplay whose keys are S1 and A1 |
| `Driver.FoldFiles` | etl.py:101-103 | when the fold over a file list succeeds, the fold over every prefix of it succeeds: a failure halts the run for good |
| `Driver.FoldFilesAppend` | etl.py:101-103 | folding over `a + b` is folding over `a` and then over `b` from the result, stopping at a failure |
| `Driver.FoldFilesConsistent` | etl.py:101-103 | a transform that keeps the store consistent keeps it consistent over the whole file list |
| `Driver.LogTransform` | etl.py:113 | the transform the driver runs over log files fails exactly on a file without records |
| `Driver.LogFilesNeverFail` | etl.py:101-103 | folding the log transform over files that all hold records succeeds and appends exactly one songplay per NextSong record across all the files |
| `Driver.LogFilesErrorIsEmptyFile` | etl.py:34-37 | a failing fold of the log transform fails with `EmptyLogFile` |
| `Driver.EmptyLogFileHalts` | etl.py:101-103 | an empty log file anywhere in the list makes the fold fail with `EmptyLogFile` |
| `Driver.LogFilesSucceedUnlessEmpty` | etl.py:101-103 | the fold over log files succeeds exactly when none of them is empty, and otherwise fails with `EmptyLogFile` |
| `Driver.AllNextSongs` | etl.py:37 | the concatenated NextSong records of a file list all have page "NextSong" |
| `Driver.LogFilesUsers` | etl.py:101-103 | over a list of log files that all hold records, the users table ends as one user pass over all their NextSong records in file order |
| `Driver.LogFilesLastLevelWins` | etl.py:101-103 | across log files that all hold records, a user's level after the last commit is the level of that user's last NextSong record in file order |
| `Driver.ProcessData` | etl.py:96-104 | "n files found" is printed first; the k-th commit equals the fold of the transform over the first k files, followed by the line "k/n"; the run stops at the first failure, which is the fold's failure; zero files give no commit and only the found line |

## Left out

- File discovery with `os.walk` and `glob` (etl.py:90-94) is filesystem I/O.
  The driver takes the file list as an input. A missing root directory makes
  `os.walk` yield nothing, so the code reports zero files rather than raising
  an error.
- `main` (etl.py:107-115) is out of scope: the connection, its hard-coded
  credentials, and the order songs-then-logs.
- Cursor, `execute` and `commit` mechanics are not modelled. A commit is
  "the pending store becomes the committed store". Store errors are not
  modelled either.
- JSON parsing with pandas is not modelled. Files are sequences of
  already-parsed records. A file with no record is modelled as a failure. A
  missing field is not modelled: pandas raises `KeyError` only when no record
  of the file has it, and otherwise reads the value as NaN. Neither are the
  null fields of non-NextSong records, which the filter drops before use.
- Floating-point semantics are not modelled. Durations, lengths, latitudes and
  longitudes are values of an abstract type that is compared only for
  equality.
- The calendar arithmetic behind day of month, week of year, month and year
  (etl.py:45-48) is not modelled. These fields come from a `Calendar`
  parameter whose fields are functions of the day number.
- Etl.Decompose: does not model pandas' range limit for timestamps (about
  ±292 years around 1970), beyond which the conversion raises.
- The DDL text and the create/drop query lists (sql_queries.py:1-62,
  sql_queries.py:105-106) are schema strings, not behaviour. Column types are
  recorded as comments on the row types. The `weekday` column is declared
  `varchar` and receives the integer weekday.
- Postgres would cast the full timestamp written to `songplays.start_time`
  (declared `time`) to a time of day. The model keeps the value that the code
  passes.
- Which row `fetchone` returns among several matches is a parameter, not a
  definition.
- Driver.ProcessData: progress output is a `Line` datatype, not formatted
  text; the `root` argument stands for the printed directory path.

=== FILE: driver.dfy ===
/** The driver: run one transform over a list of files, committing after each
    file and printing a progress line. Discovery of the file list is not
    modelled; the list is an input. */
module Driver {
  import opened Wrappers
  import opened Schema
  import opened TimeParts
  import opened Records
  import opened Queries
  import opened Etl
  import opened EtlProperties

  /** The lines the driver prints: "<n> files found in <root>" once, then
      "<k>/<n> files processed." after the k-th commit. */
  datatype Line =
    | FilesFound(count: nat, root: string)
    | FilesProcessed(index: nat, total: nat)

  /** A per-file transform from the pending store to the next one. */
  type Transform<-F> = (Store, F) -> Result<Store, EtlError>

  /** The reference semantics: the transform folded over the files in list
      order, stopping at the first failure. */
  function FoldFiles<F>(s: Store, files: seq<F>, transform: Transform<F>): (r: Result<Store, EtlError>)
    ensures r.Success? ==> forall k :: 0 <= k <= |files| ==> FoldFiles(s, files[..k], transform).Success?
    decreases |files|
  {
    if |files| == 0 then
      Success(s)
    else
      var prefix := files[..|files| - 1];
      assert forall k :: 0 <= k <= |prefix| ==> prefix[..k] == files[..k];
      assert files[..|files|] == files;
      match FoldFiles(s, prefix, transform)
      case Failure(e) => Failure(e)
      case Success(t) => transform(t, files[|files| - 1])
  }

  /** Folding over `a + b` is folding over `a`, then over `b` from there. */
  lemma {:induction false} FoldFilesAppend<F>(s: Store, a: seq<F>, b: seq<F>, transform: Transform<F>)
    ensures FoldFiles(s, a + b, transform) ==
      match FoldFiles(s, a, transform)
      case Failure(e) => Failure(e)
      case Success(t) => FoldFiles(t, b, transform)
    decreases |b|
  {
    if |b| == 0 {
      assert a + b == a;
    } else {
      var ab := a + b;
      assert ab[..|ab| - 1] == a + b[..|b| - 1];
      assert ab[|ab| - 1] == b[|b| - 1];
      FoldFilesAppend(s, a, b[..|b| - 1], transform);
    }
  }

  /** A proof step: the fold over the first i + 1 files is the fold over the
      first i files followed by file i. */
  lemma FoldFilesStep<F>(s: Store, files: seq<F>, i: int, transform: Transform<F>)
    requires 0 <= i < |files|
    ensures FoldFiles(s, files[..i + 1], transform) ==
      match FoldFiles(s, files[..i], transform)
      case Failure(e) => Failure(e)
      case Success(t) => transform(t, files[i])
  {
    assert files[..i + 1][..i] == files[..i];
  }

  /** A transform that keeps the store consistent keeps it consistent over
      every prefix of the file list. */
  lemma {:induction false} FoldFilesConsistent<F>(s: Store, files: seq<F>, transform: Transform<F>)
    requires Consistent(s)
    requires forall t, f :: Consistent(t) && transform(t, f).Success? ==> Consistent(transform(t, f).value)
    ensures FoldFiles(s, files, transform).Success? ==> Consistent(FoldFiles(s, files, transform).value)
    decreases |files|
  {
    if |files| != 0 {
      FoldFilesConsistent(s, files[..|files| - 1], transform);
    }
  }

  /** The transform the driver runs over log files: it fails exactly on a
      file without records. */
  function LogTransform(cal: Calendar, fetch: Fetch): (r: Transform<seq<LogRecord>>)
    ensures forall t, f :: r(t, f).Failure? <==> |f| == 0
  {
    (t: Store, f: seq<LogRecord>) => ProcessLogFile(t, f, cal, fetch)
  }

  /** Log files that all hold records never fail, so every one of them gets
      committed, and one songplay is appended per NextSong record. */
  lemma {:induction false} LogFilesNeverFail(s: Store, files: seq<seq<LogRecord>>, cal: Calendar, fetch: Fetch)
    requires forall i :: 0 <= i < |files| ==> |files[i]| > 0
    ensures FoldFiles(s, files, LogTransform(cal, fetch)).Success?
    ensures |FoldFiles(s, files, LogTransform(cal, fetch)).value.songplays| == |s.songplays| + |AllNextSongs(files)|
    decreases |files|
  {
    if |files| != 0 {
      var prefix := files[..|files| - 1];
      assert forall i :: 0 <= i < |prefix| ==> prefix[i] == files[i];
      LogFilesNeverFail(s, prefix, cal, fetch);
    }
  }

  /** A fold of the log transform can only fail on an empty log file. */
  lemma {:induction false} LogFilesErrorIsEmptyFile(s: Store, files: seq<seq<LogRecord>>, cal: Calendar, fetch: Fetch)
    ensures FoldFiles(s, files, LogTransform(cal, fetch)).Failure? ==>
      FoldFiles(s, files, LogTransform(cal, fetch)).error == EmptyLogFile
    decreases |files|
  {
    if |files| != 0 {
      LogFilesErrorIsEmptyFile(s, files[..|files| - 1], cal, fetch);
    }
  }

  /** An empty log file anywhere in the list makes the fold fail with
      `EmptyLogFile`: nothing after it is committed. */
  lemma {:induction false} EmptyLogFileHalts(s: Store, files: seq<seq<LogRecord>>, cal: Calendar, fetch: Fetch, j: int)
    requires 0 <= j < |files| && |files[j]| == 0
    ensures FoldFiles(s, files, LogTransform(cal, fetch)) == Failure(EmptyLogFile)
    decreases |files|
  {
    var prefix := files[..|files| - 1];
    var transform := LogTransform(cal, fetch);
    if j == |files| - 1 {
      LogFilesErrorIsEmptyFile(s, prefix, cal, fetch);
      if FoldFiles(s, prefix, transform).Success? {
        var t := FoldFiles(s, prefix, transform).value;
        assert transform(t, files[j]) == ProcessLogFile(t, files[j], cal, fetch);
      }
    } else {
      assert prefix[j] == files[j];
      EmptyLogFileHalts(s, prefix, cal, fetch, j);
    }
  }

  /** Over log files, the fold succeeds exactly when no file is empty; when it
      fails, the error is an empty log file. */
  lemma LogFilesSucceedUnlessEmpty(s: Store, files: seq<seq<LogRecord>>, cal: Calendar, fetch: Fetch)
    ensures FoldFiles(s, files, LogTransform(cal, fetch)).Success? <==> forall i :: 0 <= i < |files| ==> |files[i]| > 0
    ensures FoldFiles(s, files, LogTransform(cal, fetch)).Failure? ==>
      FoldFiles(s, files, LogTransform(cal, fetch)).error == EmptyLogFile
  {
    if forall i :: 0 <= i < |files| ==> |files[i]| > 0 {
      LogFilesNeverFail(s, files, cal, fetch);
    } else {
      var j :| 0 <= j < |files| && |files[j]| == 0;
      EmptyLogFileHalts(s, files, cal, fetch, j);
    }
  }

  /** The NextSong records of all files, in file order and record order. */
  function AllNextSongs(files: seq<seq<LogRecord>>): (r: seq<LogRecord>)
    ensures forall i :: 0 <= i < |r| ==> r[i].page == NextSong
    decreases |files|
  {
    if |files| == 0 then [] else AllNextSongs(files[..|files| - 1]) + NextSongs(files[|files| - 1])
  }

  /** Over a list of log files, the users table ends as one user pass over
      all their NextSong records in order. */
  lemma {:induction false} LogFilesUsers(s: Store, files: seq<seq<LogRecord>>, cal: Calendar, fetch: Fetch)
    requires forall i :: 0 <= i < |files| ==> |files[i]| > 0
    ensures FoldFiles(s, files, LogTransform(cal, fetch)).Success?
    ensures FoldFiles(s, files, LogTransform(cal, fetch)).value.users == UpsertUsers(s, AllNextSongs(files)).users
    decreases |files|
  {
    LogFilesNeverFail(s, files, cal, fetch);
    if |files| != 0 {
      var prefix := files[..|files| - 1];
      var last := files[|files| - 1];
      assert forall i :: 0 <= i < |prefix| ==> prefix[i] == files[i];
      LogFilesUsers(s, prefix, cal, fetch);
      var t := FoldFiles(s, prefix, LogTransform(cal, fetch)).value;
      var u := UpsertUsers(s, AllNextSongs(prefix));
      LogFileUsers(t, last, cal, fetch);
      UpsertUsersReadsUsers(t, u, NextSongs(last));
      UpsertUsersAppend(s, AllNextSongs(prefix), NextSongs(last));
    }
  }

  /** Across log files, a user's level is the level of that user's last
      NextSong record in file order. */
  lemma LogFilesLastLevelWins(s: Store, files: seq<seq<LogRecord>>, cal: Calendar, fetch: Fetch, i: int)
    requires forall j :: 0 <= j < |files| ==> |files[j]| > 0
    requires 0 <= i < |AllNextSongs(files)|
    requires forall j :: i < j < |AllNextSongs(files)| ==> AllNextSongs(files)[j].userId != AllNextSongs(files)[i].userId
    ensures FoldFiles(s, files, LogTransform(cal, fetch)).Success?
    ensures var rec := AllNextSongs(files)[i];
      var users := FoldFiles(s, files, LogTransform(cal, fetch)).value.users;
      rec.userId in users && users[rec.userId].level == rec.level
  {
    LogFilesUsers(s, files, cal, fetch);
    UpsertUsersLastWriteWins(s, AllNextSongs(files), i);
  }

  /** Processes `files` in order: after each file the pending store is
      committed and a progress line printed. The first failing file halts
      the run; what was committed before it stays committed. */
  method ProcessData<F>(s: Store, root: string, files: seq<F>, transform: Transform<F>)
    returns (commits: seq<Store>, lines: seq<Line>, failure: Option<EtlError>)
    ensures |commits| <= |files|
    ensures |lines| == |commits| + 1
    ensures lines[0] == FilesFound(|files|, root)
    ensures forall k :: 1 <= k <= |commits| ==> lines[k] == FilesProcessed(k, |files|)
    ensures forall k :: 1 <= k <= |commits| ==> FoldFiles(s, files[..k], transform) == Success(commits[k - 1])
    ensures failure.None? <==> |commits| == |files|
    ensures failure.Some? ==> FoldFiles(s, files[..|commits| + 1], transform) == Failure(failure.value)
    ensures |files| == 0 ==> commits == [] && lines == [FilesFound(0, root)] && failure.None?
  {
    commits := [];
    lines := [FilesFound(|files|, root)];
    failure := None;
    var pending := s;
    var i := 0;
    while i < |files|
      invariant 0 <= i <= |files|
      invariant |commits| == i && |lines| == i + 1
      invariant lines[0] == FilesFound(|files|, root)
      invariant forall k :: 1 <= k <= i ==> lines[k] == FilesProcessed(k, |files|)
      invariant forall k :: 1 <= k <= i ==> FoldFiles(s, files[..k], transform) == Success(commits[k - 1])
      invariant FoldFiles(s, files[..i], transform) == Success(pending)
    {
      FoldFilesStep(s, files, i, transform);
      match transform(pending, files[i]) {
        case Failure(e) =>
          assert FoldFiles(s, files[..i + 1], transform) == Failure(e);
          failure := Some(e);
          return;
        case Success(next) =>
          assert FoldFiles(s, files[..i + 1], transform) == Success(next);
          pending := next;
      }
      commits := commits + [pending];
      lines := lines + [FilesProcessed(i + 1, |files|)];
      i := i + 1;
    }
  }
}

=== FILE: etl.dfy ===
/** The per-file transforms: a song file becomes one song and one artist
    insert; a log file is filtered to its NextSong records, which then feed a
    time pass, a user pass and a songplay pass, in that order. */
module Etl {
  import opened Wrappers
  import opened TimeParts
  import opened Schema
  import opened Records
  import opened Queries

  /** Why a transform could not complete. */
  datatype EtlError =
    /** A song file without a first record to project. */
    | EmptySongFile
    /** A log file without any record: it has no `page` column to filter on. */
    | EmptyLogFile

  /** The song row projected from a song record: its song_id, title,
      artist_id, year and duration, in the insert's column order. */
  function SongRowOf(rec: SongRecord): (row: SongRow)
    ensures row.songId == rec.songId && row.title == rec.title && row.artistId == rec.artistId
    ensures row.year == rec.year && row.duration == rec.duration
  {
    SongRow(rec.songId, rec.title, rec.artistId, rec.year, rec.duration)
  }

  /** The artist row projected from a song record: its artist_id, name,
      location, latitude and longitude. The song row of the same record
      refers to exactly this artist. */
  function ArtistRowOf(rec: SongRecord): (row: ArtistRow)
    ensures row.artistId == SongRowOf(rec).artistId
    ensures row.name == rec.artistName && row.location == rec.artistLocation
    ensures row.latitude == rec.artistLatitude && row.longitude == rec.artistLongitude
  {
    ArtistRow(rec.artistId, rec.artistName, rec.artistLocation, rec.artistLatitude, rec.artistLongitude)
  }

  /** Inserts the song and then the artist of the file's first record; a file
      with no record fails, and records after the first are never read. */
  function ProcessSongFile(s: Store, file: seq<SongRecord>): (r: Result<Store, EtlError>)
    ensures r.Failure? <==> |file| == 0
    ensures r.Success? ==>
      && r.value.songs.Keys == s.songs.Keys + {file[0].songId}
      && r.value.artists.Keys == s.artists.Keys + {file[0].artistId}
      && r.value.time == s.time
      && r.value.users == s.users
      && r.value.songplays == s.songplays
      && r.value.nextSongplayId == s.nextSongplayId
    ensures r.Success? && file[0].songId !in s.songs ==> r.value.songs[file[0].songId] == SongRowOf(file[0])
    ensures r.Success? && file[0].artistId !in s.artists ==> r.value.artists[file[0].artistId] == ArtistRowOf(file[0])
    ensures r.Success? ==> forall k :: k in s.songs ==> r.value.songs[k] == s.songs[k]
    ensures r.Success? ==> forall k :: k in s.artists ==> r.value.artists[k] == s.artists[k]
    ensures r.Success? && Consistent(s) ==> Consistent(r.value)
  {
    if |file| == 0 then
      Failure(EmptySongFile)
    else
      var rec := file[0];
      Success(InsertArtist(InsertSong(s, SongRowOf(rec)), ArtistRowOf(rec)))
  }

  const NextSong: string := "NextSong"

  /** The records whose page is "NextSong", in file order. */
  function NextSongs(file: seq<LogRecord>): (r: seq<LogRecord>)
    ensures forall i :: 0 <= i < |r| ==> r[i].page == NextSong
    ensures |r| <= |file|
    decreases |file|
  {
    if |file| == 0 then
      []
    else
      var last := file[|file| - 1];
      assert file == file[..|file| - 1] + [last];
      NextSongs(file[..|file| - 1]) + if last.page == NextSong then [last] else []
  }

  /** The time row for a timestamp: keyed by its time of day, with hour and
      weekday computed and the other calendar fields taken from `cal`. */
  function Decompose(ts: int, cal: Calendar): (row: TimeRow)
    ensures row.startTime == TimeOfDayOf(ts)
    ensures 0 <= row.hour < 24 && MsPerHour * row.hour <= row.startTime < MsPerHour * (row.hour + 1)
    ensures 0 <= row.weekday < 7 && row.weekday == WeekdayOf(ts)
    ensures row.day == cal.dayOfMonth(DaysSinceEpoch(ts)) && row.week == cal.weekOfYear(DaysSinceEpoch(ts))
    ensures row.month == cal.month(DaysSinceEpoch(ts)) && row.year == cal.year(DaysSinceEpoch(ts))
  {
    var days := DaysSinceEpoch(ts);
    TimeRow(
      TimeOfDayOf(ts), HourOf(ts), cal.dayOfMonth(days), cal.weekOfYear(days),
      cal.month(days), cal.year(days), WeekdayOf(ts))
  }

  /** The time pass: one insert-or-ignore per record, in order. Only the time
      table changes; existing rows stay, and every record's time of day ends
      up as a key. */
  function InsertTimes(s: Store, recs: seq<LogRecord>, cal: Calendar): (r: Store)
    ensures r == s.(time := r.time)
    ensures forall k :: k in s.time ==> k in r.time && r.time[k] == s.time[k]
    ensures forall i :: 0 <= i < |recs| ==> TimeOfDayOf(recs[i].ts) in r.time
    ensures forall k :: k in r.time ==>
      k in s.time || exists i :: 0 <= i < |recs| && TimeOfDayOf(recs[i].ts) == k
    ensures Consistent(s) ==> Consistent(r)
    decreases |recs|
  {
    if |recs| == 0 then
      s
    else
      var prefix := recs[..|recs| - 1];
      assert forall i :: 0 <= i < |prefix| ==> prefix[i] == recs[i];
      var row := Decompose(recs[|recs| - 1].ts, cal);
      assert row.startTime == TimeOfDayOf(recs[|recs| - 1].ts);
      InsertTime(InsertTimes(s, prefix, cal), row)
  }

  /** The user row a log record upserts: its userId, firstName, lastName,
      gender and level, in the insert's column order. */
  function UserRowOf(rec: LogRecord): (row: UserRow)
    ensures row.userId == rec.userId && row.firstName == rec.firstName && row.lastName == rec.lastName
    ensures row.gender == rec.gender && row.level == rec.level
  {
    UserRow(rec.userId, rec.firstName, rec.lastName, rec.gender, rec.level)
  }

  /** The user pass: one upsert per record, in order. Only the users table
      changes, stored users stay and every record's user ends up present,
      and no other user appears. */
  function UpsertUsers(s: Store, recs: seq<LogRecord>): (r: Store)
    ensures r == s.(users := r.users)
    ensures forall k :: k in s.users ==> k in r.users
    ensures forall i :: 0 <= i < |recs| ==> recs[i].userId in r.users
    ensures forall k :: k in r.users ==>
      k in s.users || exists i :: 0 <= i < |recs| && recs[i].userId == k
    ensures Consistent(s) ==> Consistent(r)
    decreases |recs|
  {
    if |recs| == 0 then
      s
    else
      var prefix := recs[..|recs| - 1];
      assert forall i :: 0 <= i < |prefix| ==> prefix[i] == recs[i];
      UpsertUser(UpsertUsers(s, prefix), UserRowOf(recs[|recs| - 1]))
  }

  /** The songplay values for a record and its lookup result: both foreign
      keys come from the hit, or both are null. */
  function SongplayOf(rec: LogRecord, hit: Option<SongHit>): (v: SongplayValues)
    ensures v.songId.Some? <==> v.artistId.Some?
    ensures hit.Some? <==> v.songId.Some?
    ensures hit.Some? ==> v.songId.value == hit.value.songId && v.artistId.value == hit.value.artistId
  {
    var songId := if hit.Some? then Some(hit.value.songId) else None;
    var artistId := if hit.Some? then Some(hit.value.artistId) else None;
    SongplayValues(rec.ts, rec.userId, rec.level, songId, artistId, rec.sessionId, rec.location, rec.userAgent)
  }

  /** The lookup for one record: its song title, artist name and length. */
  function LookupFor(s: Store, rec: LogRecord, fetch: Fetch): (hit: Option<SongHit>)
    ensures hit.Some? <==> exists h :: JoinMatch(s, h, rec.song, rec.artist, rec.length)
    ensures hit.Some? && FetchPicksMember(fetch) ==> JoinMatch(s, hit.value, rec.song, rec.artist, rec.length)
  {
    SongSelect(s, rec.song, rec.artist, rec.length, fetch)
  }

  /** The songplay pass: per record, a lookup and then one append. Exactly one
      row is appended per record, in record order, with consecutive serial
      ids; nothing else changes. */
  function AppendSongplays(s: Store, recs: seq<LogRecord>, fetch: Fetch): (r: Store)
    ensures r.songs == s.songs && r.artists == s.artists && r.time == s.time && r.users == s.users
    ensures |r.songplays| == |s.songplays| + |recs|
    ensures r.songplays[..|s.songplays|] == s.songplays
    ensures r.nextSongplayId == s.nextSongplayId + |recs|
    ensures forall i :: 0 <= i < |recs| ==>
      r.songplays[|s.songplays| + i] == SongplayRow(s.nextSongplayId + i, SongplayOf(recs[i], LookupFor(s, recs[i], fetch)))
    ensures Consistent(s) ==> Consistent(r)
    decreases |recs|
  {
    if |recs| == 0 then
      s
    else
      var rest := AppendSongplays(s, recs[..|recs| - 1], fetch);
      var rec := recs[|recs| - 1];
      InsertSongplay(rest, SongplayOf(rec, LookupFor(rest, rec, fetch)))
  }

  /** The writes of a log file that has records: the NextSong records drive
      the time pass, then the user pass, then the songplay pass. */
  function LogFileWrites(s: Store, file: seq<LogRecord>, cal: Calendar, fetch: Fetch): (r: Store)
    ensures r.songs == s.songs && r.artists == s.artists
    ensures |r.songplays| == |s.songplays| + |NextSongs(file)|
    ensures r.songplays[..|s.songplays|] == s.songplays
    ensures Consistent(s) ==> Consistent(r)
  {
    var recs := NextSongs(file);
    AppendSongplays(UpsertUsers(InsertTimes(s, recs, cal), recs), recs, fetch)
  }

  /** A log file: one without any record fails, since the filter finds no
      `page` column; otherwise its writes are those of `LogFileWrites`. */
  function ProcessLogFile(s: Store, file: seq<LogRecord>, cal: Calendar, fetch: Fetch): (r: Result<Store, EtlError>)
    ensures r.Failure? <==> |file| == 0
    ensures r.Failure? ==> r.error == EmptyLogFile
    ensures r.Success? ==>
      && r.value.songs == s.songs && r.value.artists == s.artists
      && |r.value.songplays| == |s.songplays| + |NextSongs(file)|
      && r.value.songplays[..|s.songplays|] == s.songplays
    ensures r.Success? && Consistent(s) ==> Consistent(r.value)
  {
    if |file| == 0 then Failure(EmptyLogFile) else Success(LogFileWrites(s, file, cal, fetch))
  }
}

=== FILE: etl_properties.dfy ===
/** Properties of the transforms that relate several calls or hold across a
    whole pass: last write wins for users, first write wins for time rows,
    the NextSong filter, the per-record songplay facts, and idempotence of
    the song-file transform. */
module EtlProperties {
  import opened Wrappers
  import opened TimeParts
  import opened Schema
  import opened Records
  import opened Queries
  import opened Etl

  // ----- the NextSong filter -----

  /** Filtering distributes over concatenation, so record order is kept. */
  lemma {:induction false} NextSongsAppend(a: seq<LogRecord>, b: seq<LogRecord>)
    ensures NextSongs(a + b) == NextSongs(a) + NextSongs(b)
    decreases |b|
  {
    if |b| == 0 {
      assert a + b == a;
    } else {
      var b' := b[..|b| - 1];
      var x := b[|b| - 1];
      var tail := if x.page == NextSong then [x] else [];
      var ab := a + b;
      assert ab[..|ab| - 1] == a + b';
      assert ab[|ab| - 1] == x;
      assert NextSongs(ab) == NextSongs(a + b') + tail;
      assert NextSongs(b) == NextSongs(b') + tail;
      NextSongsAppend(a, b');
    }
  }

  /** Filtering twice is filtering once. */
  lemma {:induction false} NextSongsIdempotent(file: seq<LogRecord>)
    ensures NextSongs(NextSongs(file)) == NextSongs(file)
    decreases |file|
  {
    if |file| != 0 {
      var prefix := file[..|file| - 1];
      var last := file[|file| - 1];
      var tail := if last.page == NextSong then [last] else [];
      assert NextSongs(file) == NextSongs(prefix) + tail;
      NextSongsAppend(NextSongs(prefix), tail);
      NextSongsIdempotent(prefix);
      if last.page == NextSong {
        assert [last][..0] == [];
        assert NextSongs(tail) == NextSongs([]) + [last];
      }
    }
  }

  /** The filter keeps every NextSong record as often as the file holds it
      and drops every other record. */
  lemma {:induction false} NextSongsCounts(file: seq<LogRecord>)
    ensures forall x :: multiset(NextSongs(file))[x] == if x.page == NextSong then multiset(file)[x] else 0
    decreases |file|
  {
    if |file| != 0 {
      var prefix := file[..|file| - 1];
      var last := file[|file| - 1];
      assert file == prefix + [last];
      assert multiset(file) == multiset(prefix) + multiset{last};
      NextSongsCounts(prefix);
    }
  }

  /** A file without NextSong records yields no record to process. */
  lemma {:induction false} NoNextSongIsEmpty(file: seq<LogRecord>)
    requires forall i :: 0 <= i < |file| ==> file[i].page != NextSong
    ensures NextSongs(file) == []
    decreases |file|
  {
    if |file| != 0 {
      NoNextSongIsEmpty(file[..|file| - 1]);
    }
  }

  // ----- the time pass -----

  /** The row stored for a new time of day is the decomposition of the first
      record with that time of day; later records with the same clock time
      are ignored. */
  lemma {:induction false} InsertTimesFirstWins(s: Store, recs: seq<LogRecord>, cal: Calendar, i: int)
    requires 0 <= i < |recs|
    requires TimeOfDayOf(recs[i].ts) !in s.time
    requires forall j :: 0 <= j < i ==> TimeOfDayOf(recs[j].ts) != TimeOfDayOf(recs[i].ts)
    ensures InsertTimes(s, recs, cal).time[TimeOfDayOf(recs[i].ts)] == Decompose(recs[i].ts, cal)
    decreases |recs|
  {
    var prefix := recs[..|recs| - 1];
    var key := TimeOfDayOf(recs[i].ts);
    if i == |recs| - 1 {
      assert forall j :: 0 <= j < |prefix| ==> prefix[j] == recs[j];
      assert key !in InsertTimes(s, prefix, cal).time;
    } else {
      assert prefix[i] == recs[i];
      InsertTimesFirstWins(s, prefix, cal, i);
    }
  }

  /** The time keys after the time pass are exactly the old keys and the
      records' times of day. */
  lemma InsertTimesKeys(s: Store, recs: seq<LogRecord>, cal: Calendar)
    ensures forall k :: k in InsertTimes(s, recs, cal).time <==>
      k in s.time || exists i :: 0 <= i < |recs| && TimeOfDayOf(recs[i].ts) == k
  {
    var r := InsertTimes(s, recs, cal);
    forall k | k in s.time || exists i :: 0 <= i < |recs| && TimeOfDayOf(recs[i].ts) == k
      ensures k in r.time
    {
      if k !in s.time {
        var i :| 0 <= i < |recs| && TimeOfDayOf(recs[i].ts) == k;
        assert TimeOfDayOf(recs[i].ts) in r.time;
      }
    }
  }

  /** Two records at the same clock time on different days produce one time
      row, the first record's decomposition. */
  lemma SameClockTimeOneRow(s: Store, a: LogRecord, b: LogRecord, k: int, cal: Calendar)
    requires b.ts == a.ts + k * MsPerDay
    requires TimeOfDayOf(a.ts) !in s.time
    ensures InsertTimes(s, [a, b], cal).time == s.time[TimeOfDayOf(a.ts) := Decompose(a.ts, cal)]
  {
    WholeDayShift(a.ts, k);
    var key := TimeOfDayOf(a.ts);
    assert TimeOfDayOf(b.ts) == key;
    assert [a][..0] == [];
    var first := InsertTimes(s, [a], cal);
    assert first == InsertTime(s, Decompose(a.ts, cal));
    assert first.time == s.time[key := Decompose(a.ts, cal)];
    assert [a, b][..1] == [a];
    assert InsertTimes(s, [a, b], cal) == InsertTime(first, Decompose(b.ts, cal));
  }

  /** Two timestamps on the same date get time rows that agree on day, week,
      month, year and weekday. */
  lemma SameDateSameCalendarFields(ts1: int, ts2: int, cal: Calendar)
    requires DaysSinceEpoch(ts1) == DaysSinceEpoch(ts2)
    ensures var r1 := Decompose(ts1, cal);
      var r2 := Decompose(ts2, cal);
      && r1.day == r2.day && r1.week == r2.week && r1.month == r2.month
      && r1.year == r2.year && r1.weekday == r2.weekday
  {
  }

  /** Moving a timestamp by k whole days keeps the key and the hour of its
      time row, moves the weekday by k, and reads the calendar at the day
      number moved by k. */
  lemma DecomposeWholeDayShift(ts: int, k: int, cal: Calendar)
    ensures var r1 := Decompose(ts, cal);
      var r2 := Decompose(ts + k * MsPerDay, cal);
      && r2.startTime == r1.startTime && r2.hour == r1.hour
      && r2.weekday == (r1.weekday + k) % 7
      && r2.day == cal.dayOfMonth(DaysSinceEpoch(ts) + k)
      && r2.year == cal.year(DaysSinceEpoch(ts) + k)
  {
    WholeDayShift(ts, k);
    WeekdayShift(ts, k);
  }

  // ----- the user pass -----

  /** Users that no record names keep their rows, and no such user appears. */
  lemma {:induction false} UpsertUsersUntouched(s: Store, recs: seq<LogRecord>, k: UserId)
    requires forall i :: 0 <= i < |recs| ==> recs[i].userId != k
    ensures k in UpsertUsers(s, recs).users <==> k in s.users
    ensures k in s.users ==> UpsertUsers(s, recs).users[k] == s.users[k]
    decreases |recs|
  {
    if |recs| != 0 {
      UpsertUsersUntouched(s, recs[..|recs| - 1], k);
    }
  }

  /** A user's stored level is the level of that user's last record. */
  lemma {:induction false} UpsertUsersLastWriteWins(s: Store, recs: seq<LogRecord>, i: int)
    requires 0 <= i < |recs|
    requires forall j :: i < j < |recs| ==> recs[j].userId != recs[i].userId
    ensures recs[i].userId in UpsertUsers(s, recs).users
    ensures UpsertUsers(s, recs).users[recs[i].userId].level == recs[i].level
    decreases |recs|
  {
    if i < |recs| - 1 {
      var prefix := recs[..|recs| - 1];
      assert prefix[i] == recs[i];
      UpsertUsersLastWriteWins(s, prefix, i);
    }
  }

  /** The user pass reads only the users table. */
  lemma {:induction false} UpsertUsersReadsUsers(s1: Store, s2: Store, recs: seq<LogRecord>)
    requires s1.users == s2.users
    ensures UpsertUsers(s1, recs).users == UpsertUsers(s2, recs).users
    decreases |recs|
  {
    if |recs| != 0 {
      UpsertUsersReadsUsers(s1, s2, recs[..|recs| - 1]);
    }
  }

  /** One step of the user pass: the last record is upserted last. */
  lemma UpsertUsersLast(s: Store, recs: seq<LogRecord>)
    requires |recs| > 0
    ensures UpsertUsers(s, recs) == UpsertUser(UpsertUsers(s, recs[..|recs| - 1]), UserRowOf(recs[|recs| - 1]))
  {
  }

  /** Upserting `a + b` is upserting `a` and then `b`. */
  lemma {:induction false} UpsertUsersAppend(s: Store, a: seq<LogRecord>, b: seq<LogRecord>)
    ensures UpsertUsers(s, a + b) == UpsertUsers(UpsertUsers(s, a), b)
    decreases |b|
  {
    if |b| == 0 {
      assert a + b == a;
    } else {
      var b' := b[..|b| - 1];
      var ab := a + b;
      assert ab[..|ab| - 1] == a + b';
      assert ab[|ab| - 1] == b[|b| - 1];
      UpsertUsersLast(s, ab);
      UpsertUsersLast(UpsertUsers(s, a), b);
      UpsertUsersAppend(s, a, b');
    }
  }

  /** A user already stored keeps first name, last name and gender. */
  lemma {:induction false} UpsertUsersKeepsIdentity(s: Store, recs: seq<LogRecord>, k: UserId)
    requires k in s.users
    ensures k in UpsertUsers(s, recs).users
    ensures var u := UpsertUsers(s, recs).users[k];
      u.firstName == s.users[k].firstName && u.lastName == s.users[k].lastName
      && u.gender == s.users[k].gender
    decreases |recs|
  {
    if |recs| != 0 {
      UpsertUsersKeepsIdentity(s, recs[..|recs| - 1], k);
    }
  }

  /** A user not yet stored gets first name, last name and gender from the
      first record that names them. */
  lemma {:induction false} UpsertUsersFirstSighting(s: Store, recs: seq<LogRecord>, i: int)
    requires 0 <= i < |recs|
    requires recs[i].userId !in s.users
    requires forall j :: 0 <= j < i ==> recs[j].userId != recs[i].userId
    ensures recs[i].userId in UpsertUsers(s, recs).users
    ensures var u := UpsertUsers(s, recs).users[recs[i].userId];
      u.firstName == recs[i].firstName && u.lastName == recs[i].lastName
      && u.gender == recs[i].gender
    decreases |recs|
  {
    var prefix := recs[..|recs| - 1];
    var k := recs[i].userId;
    var p := UpsertUsers(s, prefix);
    assert UpsertUsers(s, recs) == UpsertUser(p, UserRowOf(recs[|recs| - 1]));
    if i == |recs| - 1 {
      assert forall j :: 0 <= j < |prefix| ==> prefix[j].userId != k;
      UpsertUsersUntouched(s, prefix, k);
      assert k !in p.users;
    } else {
      assert prefix[i] == recs[i];
      UpsertUsersFirstSighting(s, prefix, i);
      assert k in p.users;
    }
  }

  // ----- the songplay pass -----

  /** The lookup reads only the songs and artists tables. */
  lemma LookupReadsCatalog(s1: Store, s2: Store, rec: LogRecord, fetch: Fetch)
    requires s1.songs == s2.songs && s1.artists == s2.artists
    ensures LookupFor(s1, rec, fetch) == LookupFor(s2, rec, fetch)
  {
    var m1 := SongMatches(s1, rec.song, rec.artist, rec.length);
    var m2 := SongMatches(s2, rec.song, rec.artist, rec.length);
    assert forall h :: JoinMatch(s1, h, rec.song, rec.artist, rec.length) <==> JoinMatch(s2, h, rec.song, rec.artist, rec.length);
    assert m1 == m2;
  }

  /** A proof step: one row of the songplay pass, singled out so that the
      whole-file lemma below stays small. */
  lemma AppendedRow(s: Store, recs: seq<LogRecord>, fetch: Fetch, i: int)
    requires 0 <= i < |recs|
    ensures AppendSongplays(s, recs, fetch).songplays[|s.songplays| + i].values
         == SongplayOf(recs[i], LookupFor(s, recs[i], fetch))
  {
  }

  // ----- whole log files -----

  /** Records whose page is not NextSong have no effect. */
  lemma LogFileIgnoresOtherPages(s: Store, file: seq<LogRecord>, cal: Calendar, fetch: Fetch)
    ensures LogFileWrites(s, file, cal, fetch) == LogFileWrites(s, NextSongs(file), cal, fetch)
  {
    NextSongsIdempotent(file);
  }

  /** A log file without NextSong records leaves the store unchanged. */
  lemma LogFileWithoutNextSong(s: Store, file: seq<LogRecord>, cal: Calendar, fetch: Fetch)
    requires forall i :: 0 <= i < |file| ==> file[i].page != NextSong
    ensures LogFileWrites(s, file, cal, fetch) == s
  {
    NoNextSongIsEmpty(file);
  }

  /** The row appended for the i-th NextSong record is built from that record
      and its lookup against the songs and artists as they were before the
      file. */
  lemma LogFileSongplayValues(s: Store, file: seq<LogRecord>, cal: Calendar, fetch: Fetch, i: int)
    requires 0 <= i < |NextSongs(file)|
    ensures LogFileWrites(s, file, cal, fetch).songplays[|s.songplays| + i].values
         == SongplayOf(NextSongs(file)[i], LookupFor(s, NextSongs(file)[i], fetch))
  {
    var recs := NextSongs(file);
    var times := InsertTimes(s, recs, cal);
    var mid := UpsertUsers(times, recs);
    assert mid.songs == s.songs && mid.artists == s.artists && mid.songplays == s.songplays;
    var r := AppendSongplays(mid, recs, fetch);
    assert r == LogFileWrites(s, file, cal, fetch);
    AppendedRow(mid, recs, fetch, i);
    LookupReadsCatalog(mid, s, recs[i], fetch);
    var hit := LookupFor(s, recs[i], fetch);
    assert r.songplays[|mid.songplays| + i].values == SongplayOf(recs[i], LookupFor(mid, recs[i], fetch));
    assert LookupFor(mid, recs[i], fetch) == hit;
    assert |mid.songplays| == |s.songplays|;
    assert r.songplays[|s.songplays| + i].values == SongplayOf(recs[i], hit);
  }

  /** The songplay row appended for the i-th NextSong record carries that
      record's timestamp, user, level, session, location and user agent; its
      two foreign keys are both set exactly when some song/artist pair
      matches, and then they name a matching pair. */
  lemma LogFileSongplayRow(s: Store, file: seq<LogRecord>, cal: Calendar, fetch: Fetch, i: int)
    requires 0 <= i < |NextSongs(file)|
    ensures var rec := NextSongs(file)[i];
      var v := LogFileWrites(s, file, cal, fetch).songplays[|s.songplays| + i].values;
      && v.startTime == rec.ts && v.userId == rec.userId && v.level == rec.level
      && v.sessionId == rec.sessionId && v.location == rec.location && v.userAgent == rec.userAgent
      && (v.songId.Some? <==> v.artistId.Some?)
      && (v.songId.Some? <==> exists h :: JoinMatch(s, h, rec.song, rec.artist, rec.length))
      && (v.songId.Some? && FetchPicksMember(fetch) ==>
            JoinMatch(s, SongHit(v.songId.value, v.artistId.value), rec.song, rec.artist, rec.length))
  {
    var rec := NextSongs(file)[i];
    var hit := LookupFor(s, rec, fetch);
    LogFileSongplayValues(s, file, cal, fetch, i);
    if hit.Some? {
      assert SongHit(hit.value.songId, hit.value.artistId) == hit.value;
    }
  }

  /** After a log file, each user's level is that of the user's last NextSong
      record in the file. */
  lemma LogFileUserLevel(s: Store, file: seq<LogRecord>, cal: Calendar, fetch: Fetch, i: int)
    requires 0 <= i < |NextSongs(file)|
    requires forall j :: i < j < |NextSongs(file)| ==> NextSongs(file)[j].userId != NextSongs(file)[i].userId
    ensures var rec := NextSongs(file)[i];
      rec.userId in LogFileWrites(s, file, cal, fetch).users
      && LogFileWrites(s, file, cal, fetch).users[rec.userId].level == rec.level
  {
    var recs := NextSongs(file);
    UpsertUsersLastWriteWins(InsertTimes(s, recs, cal), recs, i);
  }

  /** A log file changes the users table exactly as the user pass over its
      NextSong records does. */
  lemma LogFileUsers(s: Store, file: seq<LogRecord>, cal: Calendar, fetch: Fetch)
    ensures LogFileWrites(s, file, cal, fetch).users == UpsertUsers(s, NextSongs(file)).users
  {
    var recs := NextSongs(file);
    var times := InsertTimes(s, recs, cal);
    UpsertUsersReadsUsers(times, s, recs);
  }

  /** A log file's time table is the one its time pass leaves: the user and
      songplay passes do not touch it. */
  lemma LogFileTime(s: Store, file: seq<LogRecord>, cal: Calendar, fetch: Fetch)
    ensures LogFileWrites(s, file, cal, fetch).time == InsertTimes(s, NextSongs(file), cal).time
  {
  }

  /** After a log file, the time table holds exactly the old keys and the
      times of day of the NextSong records. */
  lemma LogFileTimeKeys(s: Store, file: seq<LogRecord>, cal: Calendar, fetch: Fetch)
    ensures var r := LogFileWrites(s, file, cal, fetch);
      forall k :: k in r.time <==>
        k in s.time || exists i :: 0 <= i < |NextSongs(file)| && TimeOfDayOf(NextSongs(file)[i].ts) == k
  {
    LogFileTime(s, file, cal, fetch);
    InsertTimesKeys(s, NextSongs(file), cal);
  }

  // ----- song files -----

  /** Re-running a song file changes nothing more. */
  lemma SongFileIdempotent(s: Store, file: seq<SongRecord>)
    requires |file| > 0
    ensures ProcessSongFile(ProcessSongFile(s, file).value, file) == ProcessSongFile(s, file)
  {
  }

  /** Records after the first one of a song file are ignored. */
  lemma SongFileFirstRecordOnly(s: Store, file: seq<SongRecord>)
    requires |file| > 0
    ensures ProcessSongFile(s, file) == ProcessSongFile(s, file[..1])
  {
  }

  // ----- an end-to-end scenario -----

  /** A log file holding one NextSong event appends exactly one songplay,
      built from that event and its lookup. */
  lemma OneEventSongplay(s: Store, event: LogRecord, cal: Calendar, fetch: Fetch)
    requires event.page == NextSong
    ensures var r := LogFileWrites(s, [event], cal, fetch);
      && |r.songplays| == |s.songplays| + 1
      && r.songplays[|s.songplays|].values == SongplayOf(event, LookupFor(s, event, fetch))
  {
    assert [event][..0] == [];
    assert NextSongs([event]) == [event];
    LogFileSongplayValues(s, [event], cal, fetch, 0);
  }

  /** Into an empty store, a song file for S1 by A1 and then a log file with
      one NextSong event for that title, artist name and length give a
      songplay row whose foreign keys are S1 and A1. */
  lemma SongThenLogResolvesKeys(duration: Float, latitude: Float, longitude: Float,
                                ts: int, cal: Calendar, fetch: Fetch)
    requires FetchPicksMember(fetch)
    ensures var song := SongRecord("S1", "T", "A1", 2000, duration, "N", "L", latitude, longitude);
      var event := LogRecord(NextSong, ts, 7, "F", "L", "M", "free", "T", "N", duration, 1, "Here", "Agent");
      var loaded := ProcessSongFile(EmptyStore, [song]);
      && loaded.Success?
      && var r := LogFileWrites(loaded.value, [event], cal, fetch);
        && |r.songplays| == 1
        && r.songplays[0].values.songId == Some("S1")
        && r.songplays[0].values.artistId == Some("A1")
  {
    var song := SongRecord("S1", "T", "A1", 2000, duration, "N", "L", latitude, longitude);
    var event := LogRecord(NextSong, ts, 7, "F", "L", "M", "free", "T", "N", duration, 1, "Here", "Agent");
    var loaded := ProcessSongFile(EmptyStore, [song]).value;
    assert loaded.songs == map["S1" := SongRowOf(song)];
    assert loaded.artists == map["A1" := ArtistRowOf(song)];
    assert loaded.songplays == [];
    var hit := SongHit("S1", "A1");
    var hits := SongMatches(loaded, "T", "N", duration);
    assert JoinMatch(loaded, hit, "T", "N", duration);
    assert forall h :: h in hits ==> h == hit;
    assert hits == {hit};
    assert LookupFor(loaded, event, fetch) == Some(hit);
    OneEventSongplay(loaded, event, cal, fetch);
  }
}

=== FILE: queries.dfy ===
/** The DML statements: one pure store transition per insert statement, with
    its conflict policy, and the song/artist lookup join. */
module Queries {
  import opened Wrappers
  import opened Schema

  /** `insert ... on conflict (key) do nothing`: a present key keeps its row,
      an absent key gets the new row. */
  function InsertOrIgnore<K, V>(table: map<K, V>, key: K, row: V): (r: map<K, V>)
    ensures r.Keys == table.Keys + {key}
    ensures forall k :: k in table ==> r[k] == table[k]
    ensures key !in table ==> r[key] == row
  {
    if key in table then table else table[key := row]
  }

  /** song_table_insert: conflict on song_id does nothing. */
  function InsertSong(s: Store, row: SongRow): (r: Store)
    ensures r == s.(songs := r.songs)
    ensures r.songs.Keys == s.songs.Keys + {row.songId}
    ensures forall k :: k in s.songs ==> r.songs[k] == s.songs[k]
    ensures row.songId !in s.songs ==> r.songs[row.songId] == row
    ensures Consistent(s) ==> Consistent(r)
  {
    s.(songs := InsertOrIgnore(s.songs, row.songId, row))
  }

  /** artist_table_insert: conflict on artist_id does nothing, so the first
      sighting of an artist wins. */
  function InsertArtist(s: Store, row: ArtistRow): (r: Store)
    ensures r == s.(artists := r.artists)
    ensures r.artists.Keys == s.artists.Keys + {row.artistId}
    ensures forall k :: k in s.artists ==> r.artists[k] == s.artists[k]
    ensures row.artistId !in s.artists ==> r.artists[row.artistId] == row
    ensures Consistent(s) ==> Consistent(r)
  {
    s.(artists := InsertOrIgnore(s.artists, row.artistId, row))
  }

  /** time_table_insert: conflict on start_time does nothing, so the first
      row decomposed for a time of day is kept. */
  function InsertTime(s: Store, row: TimeRow): (r: Store)
    ensures r == s.(time := r.time)
    ensures r.time.Keys == s.time.Keys + {row.startTime}
    ensures forall k :: k in s.time ==> r.time[k] == s.time[k]
    ensures row.startTime !in s.time ==> r.time[row.startTime] == row
    ensures Consistent(s) ==> Consistent(r)
  {
    s.(time := InsertOrIgnore(s.time, row.startTime, row))
  }

  /** user_table_insert: on conflict on user_id only `level` is overwritten;
      a new user_id gets the whole row. */
  function UpsertUser(s: Store, row: UserRow): (r: Store)
    ensures r == s.(users := r.users)
    ensures r.users.Keys == s.users.Keys + {row.userId}
    ensures forall k :: k in s.users && k != row.userId ==> r.users[k] == s.users[k]
    ensures r.users[row.userId].level == row.level
    ensures row.userId in s.users ==>
      && r.users[row.userId].userId == s.users[row.userId].userId
      && r.users[row.userId].firstName == s.users[row.userId].firstName
      && r.users[row.userId].lastName == s.users[row.userId].lastName
      && r.users[row.userId].gender == s.users[row.userId].gender
    ensures row.userId !in s.users ==> r.users[row.userId] == row
    ensures Consistent(s) ==> Consistent(r)
  {
    var id := row.userId;
    if id in s.users then
      s.(users := s.users[id := s.users[id].(level := row.level)])
    else
      s.(users := s.users[id := row])
  }

  /** songplay_table_insert: always appends one row carrying the next serial
      id; earlier rows and the other tables stay as they were. */
  function InsertSongplay(s: Store, v: SongplayValues): (r: Store)
    ensures r == s.(songplays := r.songplays, nextSongplayId := r.nextSongplayId)
    ensures |r.songplays| == |s.songplays| + 1
    ensures r.songplays[..|s.songplays|] == s.songplays
    ensures r.songplays[|s.songplays|].values == v
    ensures r.nextSongplayId > s.nextSongplayId
    ensures Consistent(s) ==> forall i :: 0 <= i < |s.songplays| ==>
      s.songplays[i].songplayId != r.songplays[|s.songplays|].songplayId
    ensures Consistent(s) ==> Consistent(r)
  {
    s.(songplays := s.songplays + [SongplayRow(s.nextSongplayId, v)],
       nextSongplayId := s.nextSongplayId + 1)
  }

  /** A (song_id, artist_id) row of the lookup's result. */
  datatype SongHit = SongHit(songId: SongId, artistId: ArtistId)

  /** The join predicate of song_select: the song and the artist exist, are
      joined on artist_id, and match title, artist name and duration. */
  ghost predicate JoinMatch(s: Store, h: SongHit, title: string, name: string, length: Float)
  {
    && h.songId in s.songs
    && h.artistId in s.artists
    && s.songs[h.songId].artistId == h.artistId
    && s.songs[h.songId].title == title
    && s.artists[h.artistId].name == name
    && s.songs[h.songId].duration == length
  }

  /** The full result set of song_select for the given parameters. */
  function SongMatches(s: Store, title: string, name: string, length: Float): (r: set<SongHit>)
    ensures forall h :: h in r <==> JoinMatch(s, h, title, name, length)
  {
    set id | id in s.songs
        && s.songs[id].title == title
        && s.songs[id].duration == length
        && s.songs[id].artistId in s.artists
        && s.artists[s.songs[id].artistId].name == name
      :: SongHit(id, s.songs[id].artistId)
  }

  /** How the engine's `fetchone` picks a row of a result set; which row it
      picks when several match is not specified. */
  type Fetch = set<SongHit> -> SongHit

  /** A fetch that, given a non-empty result, returns one of its rows. */
  ghost predicate FetchPicksMember(fetch: Fetch)
  {
    forall hits :: hits != {} ==> fetch(hits) in hits
  }

  /** song_select followed by fetchone: `None` for an empty result. */
  function SongSelect(s: Store, title: string, name: string, length: Float, fetch: Fetch): (r: Option<SongHit>)
    ensures r.Some? <==> exists h :: JoinMatch(s, h, title, name, length)
    ensures r.Some? && FetchPicksMember(fetch) ==> JoinMatch(s, r.value, title, name, length)
  {
    var hits := SongMatches(s, title, name, length);
    if hits == {} then None else Some(fetch(hits))
  }

  /** Inserting the same song twice is the same as inserting it once. */
  lemma InsertSongIdempotent(s: Store, row: SongRow)
    ensures InsertSong(InsertSong(s, row), row) == InsertSong(s, row)
  {
  }

  /** Of two artist inserts with the same key, the first one's row is kept. */
  lemma InsertArtistFirstWins(s: Store, a: ArtistRow, b: ArtistRow)
    requires a.artistId == b.artistId
    requires a.artistId !in s.artists
    ensures InsertArtist(InsertArtist(s, a), b).artists[a.artistId] == a
  {
  }

  /** Of two user upserts with the same key, the second one's level wins and
      the names and gender of the first sighting stay. */
  lemma UpsertUserLastLevelWins(s: Store, a: UserRow, b: UserRow)
    requires a.userId == b.userId
    ensures var u := UpsertUser(UpsertUser(s, a), b).users[a.userId];
      && u.level == b.level
      && u.firstName == (if a.userId in s.users then s.users[a.userId] else a).firstName
      && u.lastName == (if a.userId in s.users then s.users[a.userId] else a).lastName
      && u.gender == (if a.userId in s.users then s.users[a.userId] else a).gender
  {
  }
}

=== FILE: records.dfy ===
/** Parsed input records: one JSON object of a song file or of a log file,
    restricted to the fields the transforms read. */
module Records {
  import opened Schema

  /** A song-metadata record. */
  datatype SongRecord = SongRecord(
    songId: SongId,
    title: string,
    artistId: ArtistId,
    year: int,
    duration: Float,
    artistName: string,
    artistLocation: string,
    artistLatitude: Float,
    artistLongitude: Float)

  /** An event-log record; `ts` is in epoch milliseconds. */
  datatype LogRecord = LogRecord(
    page: string,
    ts: int,
    userId: UserId,
    firstName: string,
    lastName: string,
    gender: string,
    level: string,
    song: string,
    artist: string,
    length: Float,
    sessionId: int,
    location: string,
    userAgent: string)
}

=== FILE: schema.dfy ===
/** The five tables of the star schema and the store that holds them. Each
    table with a primary key is a map from that key to its row, so a key
    occurs at most once; `Consistent` adds that every row sits under its own
    key and that songplay serial ids are fresh and increasing. */
module Schema {
  import opened Wrappers
  import opened TimeParts

  /** A `float` or `decimal` value; the model only compares these for equality. */
  type Float(==, !new)

  type SongId = string
  type ArtistId = string
  type UserId = int

  /** songs(song_id, title, artist_id, year, duration) */
  datatype SongRow = SongRow(
    songId: SongId,
    title: string,
    artistId: ArtistId,
    year: int,
    duration: Float)

  /** artists(artist_id, name, location, latitude, longitude) */
  datatype ArtistRow = ArtistRow(
    artistId: ArtistId,
    name: string,
    location: string,
    latitude: Float,
    longitude: Float)

  /** time(start_time, hour, day, week, month, year, weekday); the weekday
      column is declared varchar and receives the integer weekday. */
  datatype TimeRow = TimeRow(
    startTime: TimeOfDay,
    hour: int,
    day: int,
    week: int,
    month: int,
    year: int,
    weekday: int)

  /** users(user_id, first_name, last_name, gender, level) */
  datatype UserRow = UserRow(
    userId: UserId,
    firstName: string,
    lastName: string,
    gender: string,
    level: string)

  /** The eight parameters of the songplay insert, in parameter order.
      `startTime` is the full epoch-millisecond timestamp the transform
      passes, although the column is declared `time`. */
  datatype SongplayValues = SongplayValues(
    startTime: int,
    userId: UserId,
    level: string,
    songId: Option<SongId>,
    artistId: Option<ArtistId>,
    sessionId: int,
    location: string,
    userAgent: string)

  /** A songplays row: the serial `songplay_id` and the inserted values. */
  datatype SongplayRow = SongplayRow(songplayId: nat, values: SongplayValues)

  /** The whole store. `nextSongplayId` is the next value of the serial
      sequence behind `songplay_id`. */
  datatype Store = Store(
    songs: map<SongId, SongRow>,
    artists: map<ArtistId, ArtistRow>,
    time: map<TimeOfDay, TimeRow>,
    users: map<UserId, UserRow>,
    songplays: seq<SongplayRow>,
    nextSongplayId: nat)

  /** The freshly created schema: empty tables, serial starting at 1. */
  const EmptyStore: Store := Store(map[], map[], map[], map[], [], 1)

  /** Every keyed row is stored under its own key, and songplay ids are
      strictly increasing and below the next serial value. */
  ghost predicate Consistent(s: Store)
  {
    && (forall k :: k in s.songs ==> s.songs[k].songId == k)
    && (forall k :: k in s.artists ==> s.artists[k].artistId == k)
    && (forall k :: k in s.time ==> s.time[k].startTime == k)
    && (forall k :: k in s.users ==> s.users[k].userId == k)
    && (forall i :: 0 <= i < |s.songplays| ==> s.songplays[i].songplayId < s.nextSongplayId)
    && (forall i, j :: 0 <= i < j < |s.songplays| ==>
          s.songplays[i].songplayId < s.songplays[j].songplayId)
  }
}

=== FILE: time_parts.dfy ===
/** Decomposition of an epoch-millisecond timestamp (UTC) into the parts the
    time dimension stores. Time of day, hour and weekday are computed here;
    day of month, week of year, month and year come from a `Calendar`. */
module TimeParts {

  const MsPerHour: int := 3_600_000
  const MsPerDay: int := 86_400_000

  /** A clock time with millisecond precision: milliseconds since midnight. */
  type TimeOfDay = ms: int | 0 <= ms < MsPerDay

  /** The clock time of `ts`, discarding the date. Dafny's `%` with a positive
      divisor floors, as the conversion to a datetime does for instants
      before the epoch. */
  function TimeOfDayOf(ts: int): (t: TimeOfDay)
  {
    ts % MsPerDay
  }

  /** Whole days from 1970-01-01 to the date of `ts`. */
  function DaysSinceEpoch(ts: int): (d: int)
    ensures d * MsPerDay + TimeOfDayOf(ts) == ts
  {
    ts / MsPerDay
  }

  /** The hour of the day of `ts`. */
  function HourOf(ts: int): (h: int)
    ensures 0 <= h < 24
    ensures MsPerHour * h <= TimeOfDayOf(ts) < MsPerHour * (h + 1)
  {
    TimeOfDayOf(ts) / MsPerHour
  }

  /** Day of the week with Monday = 0; 1970-01-01 was a Thursday (3). */
  function WeekdayOf(ts: int): (w: int)
    ensures 0 <= w < 7
  {
    (DaysSinceEpoch(ts) + 3) % 7
  }

  /** The calendar fields of a date, as functions of the day number since the
      epoch (the Gregorian arithmetic itself is not modelled). */
  datatype Calendar = Calendar(
    dayOfMonth: int -> int,
    weekOfYear: int -> int,
    month: int -> int,
    year: int -> int)

  /** Division with remainder is unique. */
  lemma DivModUnique(n: int, q: int, r: int)
    requires 0 <= r < MsPerDay
    requires n == q * MsPerDay + r
    ensures n / MsPerDay == q && n % MsPerDay == r
  {
    var q' := n / MsPerDay;
    var r' := n % MsPerDay;
    assert (q - q') * MsPerDay == r' - r;
  }

  /** Shifting a timestamp by whole days keeps its time of day and hour and
      moves its day number by the same amount. */
  lemma WholeDayShift(ts: int, k: int)
    ensures TimeOfDayOf(ts + k * MsPerDay) == TimeOfDayOf(ts)
    ensures DaysSinceEpoch(ts + k * MsPerDay) == DaysSinceEpoch(ts) + k
    ensures HourOf(ts + k * MsPerDay) == HourOf(ts)
  {
    var d := DaysSinceEpoch(ts);
    var t := TimeOfDayOf(ts);
    assert ts + k * MsPerDay == (d + k) * MsPerDay + t;
    DivModUnique(ts + k * MsPerDay, d + k, t);
  }

  /** The next day is the next weekday, Sunday (6) wrapping to Monday (0). */
  lemma WeekdayNextDay(ts: int)
    ensures WeekdayOf(ts + MsPerDay) == (WeekdayOf(ts) + 1) % 7
  {
    WholeDayShift(ts, 1);
  }

  /** A timestamp written as whole days plus a clock time has exactly that
      day number and that time of day. */
  lemma TimeOfDayUnique(ts: int, d: int, t: int)
    requires 0 <= t < MsPerDay
    requires ts == d * MsPerDay + t
    ensures TimeOfDayOf(ts) == t && DaysSinceEpoch(ts) == d
  {
    DivModUnique(ts, d, t);
  }

  /** Every instant of 1970-01-01 falls on a Thursday. */
  lemma EpochDayIsThursday(ts: int)
    requires 0 <= ts < MsPerDay
    ensures WeekdayOf(ts) == 3
  {
    DivModUnique(ts, 0, ts);
  }

  /** Moving a timestamp by k whole days moves its weekday by k, modulo 7. */
  lemma WeekdayShift(ts: int, k: int)
    ensures WeekdayOf(ts + k * MsPerDay) == (WeekdayOf(ts) + k) % 7
  {
    WholeDayShift(ts, k);
  }
}

=== FILE: wrappers.dfy ===
/** Option and Result datatypes used across the model: `Option` for nullable
    columns and the lookup result, `Result` for transforms that can fail. */
module Wrappers {

  /** A value that may be absent (SQL NULL, an empty lookup). */
  datatype Option<+T> = None | Some(value: T)

  /** The outcome of a transform: the new store, or the error that halts the run. */
  datatype Result<+R, +E> = Success(value: R) | Failure(error: E)
}
